=== FILE: README.md ===
# Excel analysis backend — a Dafny model

This project models the request handlers of an Express/Mongoose backend.
Users upload Excel workbooks, save chart configurations ("analyses") for
them, ask for a text summary of a workbook, and administrators look at
users and usage counts.

The model is functional:
- Each MongoDB collection is a `map` from document id to an immutable record.
- Each handler is a function or method from the collection (and the
  request) to a reply and, for writes, the new collection.
- Things the handlers call but that are not part of the core are inputs:
  - the spreadsheet decoder (`Files.Parse`);
  - the token library (`verify: string -> Decoded`);
  - the text-generation service (`call: DataSummary -> CallOutcome`);
  - the document id and creation time that Mongoose fills in when a
    document is built (`newId`, `now`).

Modules follow the source layout:
- `Http`: status codes and the `{ error, details? }` reply shape.
- `Strings`: the JavaScript string built-ins that are used (`split`, `join`,
  `startsWith`, `endsWith`, number rendering).
- `Rows`: parsed sheet rows and the column projection.
- `Listing`: `find(filter).sort({ stamp: -1 })` over a collection.
- `ErrorHandler`: the global error middleware.
- `Auth`: `verifyToken`, `isAdmin` and the owner-or-admin rule.
- `FileModel` and `AnalysisModel`: the two Mongoose schemas.
- `Files`, `Analyses`, `Insights` and `Admin`: the four routers.

Three behaviours of the handlers are worth knowing:
- An unreadable workbook is forwarded to the error handler. It is answered
  with 500 and the decoder's message.
- A file refused by the upload filter, or one over the 10 MB limit, also
  reaches the error handler. It is answered with 500 and the filter's or
  the upload library's message.
- In `POST /api/analysis` the missing-field and chart-type checks come
  before the ownership check. A caller who may not touch the file
  therefore gets 400, not 403, for an incomplete body. Only a complete body
  with a known chart type reaches the 403, whatever axes it names
  (`Analyses.StrangerIsRefusedWhateverTheAxes`).

## Model

| member | source | states |
|---|---|---|
| Strings.Split | middleware/auth.js:22 | `split(' ')` yields at least one piece, no piece holds the separator, and joining the pieces restores the header |
| Strings.SplitJoin | middleware/auth.js:22 | splitting a join of separator-free pieces gives back the pieces |
| Strings.Decimal | routes/ai.js:108 | a count rendered in the template is a non-empty digit string without a leading zero |
| Strings.ParseDecimal | routes/ai.js:108 | reading the rendered count back yields the count |
| Rows.Project | routes/files.js:60-66 | a kept row has exactly the file's columns as keys, in order, each holding the original row's value or undefined |
| Rows.ProjectKeepsMatchingRow | routes/files.js:60-66 | a row that already has exactly the columns is kept unchanged |
| Rows.ProjectIdempotent | routes/files.js:60-66 | projecting twice onto the same columns equals projecting once |
| Listing.InsertAt | routes/files.js:106-107 | placing one document into the list adds exactly that document at the chosen position |
| Listing.SelectNewestFirst | routes/files.js:106-107 | the query returns exactly the matching documents, each once, with stamps never increasing |
| Listing.SameMembersSameOrder | routes/analysis.js:80-81 | two strictly ordered lists with the same members are equal |
| Listing.ListingIsDeterminedByDistinctStamps | routes/analysis.js:80-81 | when no two matching documents share a stamp, the sorted result is unique |
| ErrorHandler.StatusOrDefault | middleware/errorHandler.js:34 | a missing or zero status becomes 500; any other status is kept |
| ErrorHandler.MessageOrDefault | middleware/errorHandler.js:35 | a missing or empty message becomes "Internal server error"; any other message is kept |
| ErrorHandler.Handle | middleware/errorHandler.js:5-37 | a validation error gives 400 with one detail per sub-error; then duplicate key 11000 gives 400; then the two token errors give 401; anything else gets its own status and message or 500 |
| ErrorHandler.StatusComesFromTheTaxonomy | middleware/errorHandler.js:5-37 | the reply status is 400, 401 or 500, unless the error carried that status itself |
| ErrorHandler.ValidationReportsEverySubError | middleware/errorHandler.js:9-14 | a validation error lists every sub-error message, in order, even when it also has code 11000 |
| ErrorHandler.UnclassifiedErrorIsGeneric | middleware/errorHandler.js:33-36 | an unknown error without status or message gives 500 "Internal server error" |
| Auth.ProfileOf | middleware/auth.js:26 | the attached user carries every account field except the password hash |
| Auth.BearerToken | middleware/auth.js:22 | the token is the space-free text after "Bearer ", ending at the next space or at the end of the header |
| Auth.BearerTokenRoundTrip | middleware/auth.js:18-22 | a header built as "Bearer " plus a space-free token yields that token |
| Auth.VerifyToken | middleware/auth.js:14-42 | the request is authenticated exactly when a Bearer header holds a token that decodes to an existing user; otherwise 401 "No token provided", 401 "User not found" or the catch-block reply |
| Auth.ClassifyThrown | middleware/auth.js:33-41 | the two token error names give 401 with their own message; every other thrown error gives 500 "Authentication failed" |
| Auth.RejectionsAreUnauthorizedOrInternal | middleware/auth.js:14-42 | every refusal by the middleware is a 401 or a 500 |
| Auth.TokenErrorsAgreeWithErrorHandler | middleware/auth.js:34-39 | the middleware words and codes the two token errors exactly as the global error handler does |
| Auth.CanAccess | routes/files.js:130 | the owner-or-admin rule: the caller owns the file or has role "admin"; the same test guards routes/files.js:166, routes/analysis.js:36 and :75, and routes/ai.js:24 |
| Auth.IsAdmin | middleware/auth.js:48-54 | the gate passes exactly when an attached user has role "admin"; otherwise 403 "Admin access required" |
| Auth.AdminOnly | routes/admin.js:10-11 | an admin route proceeds exactly for an authenticated admin; otherwise it replies with the first refusal in the chain |
| FileModel.MissingFileFields | models/File.js:9-16 | the schema accepts a record exactly when its original name and mime type are non-empty |
| FileModel.Summarize | routes/files.js:106-108 | a history entry carries every stored field except the kept rows |
| AnalysisModel.ChartTypeNamed | models/Analysis.js:22-26 | a name maps to a chart kind exactly when it is one of the five enum names, and that kind carries the name |
| AnalysisModel.ChartTypeNameRoundTrip | models/Analysis.js:22-26 | each chart kind is found again from its name |
| AnalysisModel.MissingAnalysisFields | models/Analysis.js:14-21 | the schema accepts a configuration exactly when both axes are non-empty |
| Files.AcceptsUpload | routes/files.js:17-22 | the upload filter accepts exactly the two Excel mime types or a name ending in ".xls" or ".xlsx" |
| Files.FilterTrustsEitherSignal | routes/files.js:15-27 | an Excel file name passes with any mime type, and an Excel mime type passes with any file name |
| Files.Columns | routes/files.js:56 | the columns are the first row's keys, in order, distinct for a well-formed row |
| Files.Sample | routes/files.js:60-66 | the first min(rows, 100) rows are kept, each holding exactly the columns, with the sheet's values |
| Files.SampleIgnoresLaterRows | routes/files.js:60 | rows past the hundredth never reach the stored record |
| Files.SampleOfUniformRows | routes/files.js:60-66 | when the leading rows already have exactly the columns, the kept rows are the sheet's own prefix |
| Files.Ingest | routes/files.js:56-77 | the stored record keeps the owner, the upload's name, type and size, the full row count and the kept rows |
| Files.UploadFile | routes/files.js:35-97 | the checks run in order: no file gives 400, filter refusal gives the error handler's reply, over 10 MB likewise, an unreadable workbook likewise, an empty sheet gives 400, a schema failure gives a validation error; success gives 201 with all rows as fullData and inserts exactly one record |
| Files.UploadFailureStatuses | routes/files.js:15-27 | a refused type, an oversize file or an unreadable workbook all end in 500 |
| Files.UploadKeepsStoreConsistent | routes/files.js:56-79 | uploads keep every stored record's kept rows bounded by 100 and shaped by the columns |
| FileModel.Locate | routes/files.js:123-132 | 404 when the file is missing, 403 unless the caller owns it or is an admin, otherwise the stored record |
| Files.GetFile | routes/files.js:121-150 | a read returns the stored fields, with the kept rows also given as fullData |
| Files.DeleteFile | routes/files.js:157-177 | after the same checks, exactly that file is removed and the confirmation names its id; a refusal changes nothing |
| Files.DeleteKeepsStoreConsistent | routes/files.js:171 | deletes keep every remaining record's shape |
| Files.UploadThenGet | routes/files.js:35-150 | reading back an upload returns its first-row columns, full row count and kept rows |
| Files.UploadThenDeleteRestores | routes/files.js:157-177 | the uploader may delete the upload, which restores the collection to what it was before |
| Files.DeleteThenGet | routes/files.js:121-177 | a deleted file is a 404 for every reader |
| Files.History | routes/files.js:104-114 | the history lists exactly the caller's files, each once, newest upload first, without the kept rows |
| Files.HistoryIsDetermined | routes/files.js:106-108 | two histories of the same collection are equal when no two of the caller's uploads share a time |
| Analyses.RouteAndSchemaAgreeOnChartTypes | routes/analysis.js:25-28 | the route's list of chart types and the schema enum accept the same names |
| Analyses.StageOf | routes/analysis.js:20-43 | the checks run in order and each stage is characterised exactly: an incomplete body stops at the missing field; otherwise a chart type outside the five names stops at the chart-type check; otherwise an unknown file stops at the lookup; otherwise a caller who is neither owner nor admin stops at the access check; otherwise an axis outside the file's columns stops at the axis check; only a request passing all five is accepted |
| Analyses.NewAnalysis | routes/analysis.js:46-53 | the new configuration takes file, axes and chart kind from the body, the caller as creator, `{}` for absent options, and passes the schema |
| Analyses.CreateAnalysis | routes/analysis.js:16-61 | 400 missing fields, 400 bad chart type, 404, 403, 400 unknown axis, in that order; exactly an accepted request gives 201 and adds one configuration; a refusal changes nothing |
| Analyses.CreatedAnalysisFitsFile | routes/analysis.js:40-57 | a created configuration refers to an existing file and two of its columns, and keeps the requested chart name |
| Analyses.AdminCreatesUnderOwnId | routes/analysis.js:36-48 | an admin may chart another user's file, and the configuration records the admin, not the owner |
| Analyses.StrangerIsRefusedWhateverTheAxes | routes/analysis.js:20-38 | once the body is complete and the chart type is known, a non-owner non-admin gets 403 whatever axes the body names |
| Analyses.ListAnalyses | routes/analysis.js:67-87 | after 404/403, the reply lists every configuration of the file, whoever created it, each once, newest first |
| Analyses.CreatedAnalysisIsListed | routes/analysis.js:16-87 | a created configuration appears in the next listing of its file, which gains exactly that entry |
| Insights.Summary | routes/ai.js:29-34 | the summary keeps name, columns and row count, and the first min(5, kept) rows unchanged |
| Insights.MockInsights | routes/ai.js:107-113 | the local text starts with "This dataset contains " and ends with the fixed advice paragraphs |
| Insights.MockInsightsIgnoreNameAndSample | routes/ai.js:107-113 | the local text depends only on the row count and the columns |
| Insights.MockInsightsReportRowCount | routes/ai.js:108 | the text starts with the opening words, and the digits after them read back as the row count |
| Insights.MockInsightsAfterRowCount | routes/ai.js:108 | what follows the rendered row count is the rest of the text |
| Insights.MockInsightsReportColumnCount | routes/ai.js:108 | after the row count come " rows with " and digits that read back as the number of columns |
| Insights.MockInsightsListColumns | routes/ai.js:108 | after the column count come " columns: ", the column names joined by ", ", and the fixed advice paragraphs |
| Insights.GetInsights | routes/ai.js:15-102 | 404 then 403; with a non-empty key, the service's answer is tagged "openai" and any service failure falls back to the local text; without a key, the local text is tagged as such |
| Insights.ServiceFailureNeverSurfaces | routes/ai.js:73-98 | for an accessible file the reply is always 200, and any source other than the service carries the local text |
| Admin.ListUsers | routes/admin.js:17-27 | behind the admin gate, every account is listed once without its password hash, newest first |
| Admin.EntryFor | routes/admin.js:40-66 | an entry joins an owner's file count with that owner's name and email |
| Admin.FilesPerUser | routes/admin.js:40-66 | one entry per file owner that still has an account, each owner once, with that owner's file count |
| Admin.UsageStats | routes/admin.js:33-77 | behind the admin gate, the totals are the sizes of the three collections plus the per-owner entries |
| Admin.FileCountsAddUp | routes/admin.js:40-66 | the per-owner counts add up to at most the number of files, and to exactly that when every owner still has an account |

## Left out

- Decoding the workbook (`xlsx.read`, `sheet_to_json`) is an input. With
  `raw: false` the decoder formats every cell as text, so the `Number` and
  `Flag` cells of `Rows.Cell` never come from an upload. They are a
  harmless over-approximation: no handler inspects cell values.
- Express, multer and Mongoose plumbing is not modelled: routing,
  `upload.single`, in-memory buffers, `save` and `find` calls. Database
  failures that reach `next(error)` other than schema validation are not
  modelled either.
- `jwt.verify`, the secret and its fallback value are not modelled. The
  token library is the `verify` parameter, and its outcome is a user id or
  the name of the thrown error.
- The request to the text-generation service is not modelled: the prompt,
  the model name, the HTTP call and the JSON decoding. Its outcome is the
  `call` parameter. A reply without `choices` is one of the `Failed`
  outcomes.
- Logging (`console.error`, `console.warn`) is not modelled.
- Malformed ids are not modelled. With Mongoose, a malformed id makes
  `findById` throw a cast error. In a route that error reaches the error
  handler. In the bearer-token middleware it is caught by the
  middleware's own catch block and answered with 500 "Authentication
  failed". In the model every id is a string key: an unknown file id is a
  404, and an unknown user id decoded from a token is a 401 "User not
  found".
- Request bodies whose members have other JSON types are not modelled.
  `fileId`, `xAxis`, `yAxis` and `chartType` are strings or absent.
  `options` is an object of cells or absent. An `options` of `null`,
  `false`, `0` or `""` (which `options || {}` turns into `{}`) is not
  modelled, and neither is a string, number or array `options` (which is
  kept as given).
- Document ids and timestamps are generated by Mongoose inside the
  application when `new File(...)` or `new Analysis(...)` builds the
  document (`_id` and the `Date.now` defaults). They are the `newId` and
  `now` parameters, and `newId` is required to be unused.
- The order of documents with equal timestamps is left open, as MongoDB
  leaves it. The listing lemmas prove uniqueness only for distinct
  timestamps.
- `Admin.FilesPerUser`: the order of the entries is left open, as the
  aggregation leaves it.
- Each `filesPerUser` entry also carries `_id` (the owner's id again),
  because the `$project` stage does not exclude it. `Admin.UsageEntry`
  keeps only `userId`.
- Deleting a file does not delete its configurations, just as in the
  source. The model has no cascade.
- Analyses.CreateAnalysis: the schema's own validation of a new
  configuration is not a separate branch. The route's checks already
  guarantee non-empty axes and a known chart type, so that validation
  cannot fail (`Analyses.NewAnalysis` ensures `MissingAnalysisFields(a) ==
  []`).
- FileModel.MissingFileFields: Mongoose's `required` on the array paths
  (`columns`, `sampleData`) and on the number paths is not modelled. Only
  the two required string paths are checked.
- `server.js` is not part of this model: mounting, CORS, the database
  connection and the health route.

=== FILE: admin.dfy ===
/** The admin routes, both behind `verifyToken` and `isAdmin`: the user
    list without password hashes, and usage counts with the number of files
    of each uploader who still has an account. */
module Admin {

  import opened Basics
  import opened Http
  import opened Listing
  import opened Auth
  import opened FileModel
  import opened AnalysisModel

  /** `GET /users` */
  method ListUsers(authorization: Option<string>, verify: string -> Decoded, users: Users)
    returns (r: Reply<seq<Profile>>)
    ensures var gate := AdminOnly(authorization, verify, users);
      (r.Success? <==> gate.Success?) && (gate.Failure? ==> r == Failure(gate.status, gate.body))
    ensures r.Success? ==> r.status == OK
    ensures r.Success? ==> forall p: Profile :: p in r.value <==> p.id in users && p == ProfileOf(p.id, users[p.id])
    ensures r.Success? ==> forall i, j :: 0 <= i < j < |r.value| ==>
      r.value[i].id != r.value[j].id && r.value[i].createdAt >= r.value[j].createdAt
  {
    var gate := AdminOnly(authorization, verify, users);
    if gate.Failure? {
      return Failure(gate.status, gate.body);
    }
    var ids := SelectNewestFirst(users, (u: User) => true, (u: User) => u.createdAt);
    var profiles := seq(|ids|, i requires 0 <= i < |ids| => ProfileOf(ids[i], users[ids[i]]));
    forall p: Profile | p.id in users && p == ProfileOf(p.id, users[p.id]) ensures p in profiles {
      var i :| 0 <= i < |ids| && ids[i] == p.id;
      assert profiles[i] == p;
    }
    return Success(OK, profiles);
  }

  /** One line of `filesPerUser`. */
  datatype UsageEntry = UsageEntry(userId: UserId, userName: string, userEmail: string, fileCount: nat)

  datatype Usage = Usage(totalFiles: nat, totalAnalyses: nat, totalUsers: nat, filesPerUser: seq<UsageEntry>)

  /** The files uploaded by `u`. */
  function OwnedBy(files: FileStore, u: UserId): set<FileId> {
    set id | id in files && files[id].owner == u
  }

  /** Everyone who owns at least one file. */
  function Owners(files: FileStore): set<UserId> {
    set id | id in files :: files[id].owner
  }

  /** The group of `u`'s files joined with `u`'s account. */
  function EntryFor(files: FileStore, users: Users, u: UserId): (e: UsageEntry)
    requires u in users
    ensures e.userId == u && e.fileCount == |OwnedBy(files, u)|
    ensures e.userName == users[u].name && e.userEmail == users[u].email
  {
    UsageEntry(u, users[u].name, users[u].email, |OwnedBy(files, u)|)
  }

  /** What the aggregation yields: one entry for each file owner that has
      an account, in no particular order; owners without an account are
      dropped by the join. */
  ghost predicate IsFilesPerUser(files: FileStore, users: Users, es: seq<UsageEntry>) {
    && (forall i, j :: 0 <= i < j < |es| ==> es[i].userId != es[j].userId)
    && (forall e :: e in es <==> e.userId in Owners(files) && e.userId in users && e == EntryFor(files, users, e.userId))
  }

  method FilesPerUser(files: FileStore, users: Users) returns (es: seq<UsageEntry>)
    ensures IsFilesPerUser(files, users, es)
  {
    var owners := Owners(files);
    var rest := owners;
    es := [];
    while rest != {}
      invariant rest <= owners
      invariant forall i, j :: 0 <= i < j < |es| ==> es[i].userId != es[j].userId
      invariant forall e :: e in es <==> e.userId in owners - rest && e.userId in users && e == EntryFor(files, users, e.userId)
      decreases rest
    {
      var o :| o in rest;
      if o in users {
        es := es + [EntryFor(files, users, o)];
      }
      rest := rest - {o};
    }
  }

  /** `GET /usage` */
  method UsageStats(authorization: Option<string>, verify: string -> Decoded, users: Users,
                    files: FileStore, analyses: AnalysisStore) returns (r: Reply<Usage>)
    ensures var gate := AdminOnly(authorization, verify, users);
      (r.Success? <==> gate.Success?) && (gate.Failure? ==> r == Failure(gate.status, gate.body))
    ensures r.Success? ==> r.status == OK
    ensures r.Success? ==>
      && r.value.totalFiles == |files| && r.value.totalAnalyses == |analyses| && r.value.totalUsers == |users|
      && IsFilesPerUser(files, users, r.value.filesPerUser)
  {
    var gate := AdminOnly(authorization, verify, users);
    if gate.Failure? {
      return Failure(gate.status, gate.body);
    }
    var perUser := FilesPerUser(files, users);
    return Success(OK, Usage(|files|, |analyses|, |users|, perUser));
  }

  function SumCounts(es: seq<UsageEntry>): nat {
    if |es| == 0 then 0 else es[0].fileCount + SumCounts(es[1..])
  }

  function IdsOf(es: seq<UsageEntry>): set<UserId> {
    set i | 0 <= i < |es| :: es[i].userId
  }

  function OwnedByAny(files: FileStore, us: set<UserId>): set<FileId> {
    set id | id in files && files[id].owner in us
  }

  lemma IdsOfFirstAndRest(es: seq<UsageEntry>)
    requires |es| > 0
    requires forall i, j :: 0 <= i < j < |es| ==> es[i].userId != es[j].userId
    ensures IdsOf(es) == {es[0].userId} + IdsOf(es[1..])
    ensures es[0].userId !in IdsOf(es[1..])
  {
    forall u ensures u in IdsOf(es) <==> u == es[0].userId || u in IdsOf(es[1..]) {
      if u in IdsOf(es) {
        var i :| 0 <= i < |es| && es[i].userId == u;
        if i > 0 {
          assert es[1..][i - 1].userId == u;
        }
      }
      if u in IdsOf(es[1..]) {
        var i :| 0 <= i < |es[1..]| && es[1..][i].userId == u;
        assert es[i + 1].userId == u;
      }
    }
    forall i | 0 <= i < |es[1..]| ensures es[1..][i].userId != es[0].userId {
      assert es[1..][i] == es[i + 1];
    }
  }

  lemma OwnedByAnySplits(files: FileStore, u: UserId, us: set<UserId>)
    requires u !in us
    ensures OwnedByAny(files, {u} + us) == OwnedBy(files, u) + OwnedByAny(files, us)
    ensures |OwnedByAny(files, {u} + us)| == |OwnedBy(files, u)| + |OwnedByAny(files, us)|
  {
    assert OwnedByAny(files, {u} + us) == OwnedBy(files, u) + OwnedByAny(files, us);
    assert OwnedBy(files, u) !! OwnedByAny(files, us);
  }

  lemma {:induction false} SumCountsOwnedFiles(files: FileStore, es: seq<UsageEntry>)
    requires forall i :: 0 <= i < |es| ==> es[i].fileCount == |OwnedBy(files, es[i].userId)|
    requires forall i, j :: 0 <= i < j < |es| ==> es[i].userId != es[j].userId
    ensures SumCounts(es) == |OwnedByAny(files, IdsOf(es))|
  {
    if |es| > 0 {
      SumCountsOwnedFiles(files, es[1..]);
      IdsOfFirstAndRest(es);
      OwnedByAnySplits(files, es[0].userId, IdsOf(es[1..]));
    } else {
      assert OwnedByAny(files, IdsOf(es)) == {};
    }
  }

  lemma SubsetNoLarger<T>(a: set<T>, b: set<T>)
    requires a <= b
    ensures |a| <= |b|
  {
    assert b == a + (b - a);
  }

  /** The per-owner counts never add up to more than the number of files,
      and add up to exactly that when every owner still has an account. */
  lemma FileCountsAddUp(files: FileStore, users: Users, es: seq<UsageEntry>)
    requires IsFilesPerUser(files, users, es)
    ensures SumCounts(es) <= |files|
    ensures Owners(files) <= users.Keys ==> SumCounts(es) == |files|
  {
    forall i | 0 <= i < |es| ensures es[i].fileCount == |OwnedBy(files, es[i].userId)| {
      assert es[i] in es;
    }
    SumCountsOwnedFiles(files, es);
    var counted := OwnedByAny(files, IdsOf(es));
    SubsetNoLarger(counted, files.Keys);
    if Owners(files) <= users.Keys {
      forall id | id in files ensures id in counted {
        var o := files[id].owner;
        assert o in Owners(files);
        assert EntryFor(files, users, o) in es;
        var i :| 0 <= i < |es| && es[i] == EntryFor(files, users, o);
        assert o in IdsOf(es);
      }
      assert counted == files.Keys;
    }
  }
}

=== FILE: analyses.dfy ===
/** The analysis routes: creating a chart configuration for a file through
    a fixed sequence of checks, and listing the configurations of a file. */
module Analyses {

  import opened Basics
  import opened Http
  import opened Listing
  import opened Auth
  import opened FileModel
  import opened AnalysisModel

  /** The chart kinds the route accepts, in its own words. */
  const ROUTE_CHART_TYPES: seq<string> := ["bar", "line", "pie", "scatter", "3d-bar"]

  /** The route's list and the schema's enum agree, so a chart kind the
      route lets through never fails the schema. */
  lemma RouteAndSchemaAgreeOnChartTypes(s: string)
    ensures s in ROUTE_CHART_TYPES <==> ChartTypeNamed(s).Some?
  {
  }

  /** The request body; an absent member is `None`. */
  datatype AnalysisRequest = AnalysisRequest(
    fileId: Option<string>,
    xAxis: Option<string>,
    yAxis: Option<string>,
    chartType: Option<string>,
    options: Option<Options>)

  /** A body member that is present and not the empty string. */
  predicate Given(field: Option<string>) {
    field.Some? && field.value != ""
  }

  predicate HasRequiredFields(req: AnalysisRequest) {
    Given(req.fileId) && Given(req.xAxis) && Given(req.yAxis) && Given(req.chartType)
  }

  /** The configuration a request that passed every check creates. */
  function NewAnalysis(req: AnalysisRequest, actor: Profile, now: int): (a: Analysis)
    requires HasRequiredFields(req) && ChartTypeNamed(req.chartType.value).Some?
    ensures a.fileId == req.fileId.value && a.userId == actor.id
    ensures a.xAxis == req.xAxis.value && a.yAxis == req.yAxis.value
    ensures a.chartType.Name() == req.chartType.value
    ensures a.createdAt == now
    ensures a.options == (if req.options.Some? then req.options.value else map[])
    ensures MissingAnalysisFields(a) == []
  {
    var options := if req.options.Some? then req.options.value else map[];
    Analysis(req.fileId.value, actor.id, req.xAxis.value, req.yAxis.value,
             ChartTypeNamed(req.chartType.value).value, now, options)
  }

  /** Where a request stops, in the order the route checks. */
  datatype Stage = MissingField | BadChartType | NoSuchFile | NotAllowed | BadAxis | Accepted

  function StageOf(files: FileStore, actor: Profile, req: AnalysisRequest): (stage: Stage)
    ensures stage == Accepted <==>
      && HasRequiredFields(req) && req.chartType.value in ROUTE_CHART_TYPES
      && req.fileId.value in files && CanAccess(files[req.fileId.value].owner, actor)
      && req.xAxis.value in files[req.fileId.value].columns && req.yAxis.value in files[req.fileId.value].columns
    ensures stage == MissingField <==> !HasRequiredFields(req)
    ensures stage == BadChartType <==> HasRequiredFields(req) && req.chartType.value !in ROUTE_CHART_TYPES
    ensures stage == NoSuchFile <==>
      && HasRequiredFields(req) && req.chartType.value in ROUTE_CHART_TYPES
      && req.fileId.value !in files
    ensures stage == NotAllowed <==>
      && HasRequiredFields(req) && req.chartType.value in ROUTE_CHART_TYPES
      && req.fileId.value in files && !CanAccess(files[req.fileId.value].owner, actor)
    ensures stage == BadAxis <==>
      && HasRequiredFields(req) && req.chartType.value in ROUTE_CHART_TYPES
      && req.fileId.value in files && CanAccess(files[req.fileId.value].owner, actor)
      && (req.xAxis.value !in files[req.fileId.value].columns
          || req.yAxis.value !in files[req.fileId.value].columns)
  {
    if !HasRequiredFields(req) then MissingField
    else if req.chartType.value !in ROUTE_CHART_TYPES then BadChartType
    else if req.fileId.value !in files then NoSuchFile
    else if !CanAccess(files[req.fileId.value].owner, actor) then NotAllowed
    else if req.xAxis.value !in files[req.fileId.value].columns
         || req.yAxis.value !in files[req.fileId.value].columns then BadAxis
    else Accepted
  }

  /** `POST /`: the checks in order, then the save. `newId` and `now` are
      the id and time the database assigns. */
  function CreateAnalysis(files: FileStore, analyses: AnalysisStore, actor: Profile, req: AnalysisRequest,
                          newId: AnalysisId, now: int): (res: (Reply<(AnalysisId, Analysis)>, AnalysisStore))
    requires newId !in analyses
    ensures res.0.Failure? ==> res.1 == analyses
    ensures res.0.Success? <==> StageOf(files, actor, req) == Accepted
    ensures StageOf(files, actor, req) == MissingField ==>
      res.0.Rejects(BAD_REQUEST, "fileId, xAxis, yAxis, and chartType are required")
    ensures StageOf(files, actor, req) == BadChartType ==> res.0.Rejects(BAD_REQUEST, "Invalid chart type")
    ensures StageOf(files, actor, req) == NoSuchFile ==> res.0.Rejects(NOT_FOUND, "File not found")
    ensures StageOf(files, actor, req) == NotAllowed ==> res.0.Rejects(FORBIDDEN, "Access denied")
    ensures StageOf(files, actor, req) == BadAxis ==>
      res.0.Rejects(BAD_REQUEST, "Selected axes must exist in file columns")
    ensures res.0.Success? ==>
      var a := res.0.value.1;
      && res.0.status == CREATED && res.0.value.0 == newId
      && res.1 == analyses[newId := a]
      && a.userId == actor.id && a.createdAt == now
  {
    match StageOf(files, actor, req)
    case MissingField => (Fail(BAD_REQUEST, "fileId, xAxis, yAxis, and chartType are required"), analyses)
    case BadChartType => (Fail(BAD_REQUEST, "Invalid chart type"), analyses)
    case NoSuchFile => (Fail(NOT_FOUND, "File not found"), analyses)
    case NotAllowed => (Fail(FORBIDDEN, "Access denied"), analyses)
    case BadAxis => (Fail(BAD_REQUEST, "Selected axes must exist in file columns"), analyses)
    case Accepted =>
      RouteAndSchemaAgreeOnChartTypes(req.chartType.value);
      // the schema's own validation cannot fail here: NewAnalysis ensures
      // MissingAnalysisFields(a) == []
      var a := NewAnalysis(req, actor, now);
      (Success(CREATED, (newId, a)), analyses[newId := a])
  }

  /** A created configuration is the one the request asked for, and it
      refers to an existing file and two of that file's columns. */
  lemma CreatedAnalysisFitsFile(files: FileStore, analyses: AnalysisStore, actor: Profile, req: AnalysisRequest,
                                newId: AnalysisId, now: int)
    requires newId !in analyses
    requires CreateAnalysis(files, analyses, actor, req, newId, now).0.Success?
    ensures var a := CreateAnalysis(files, analyses, actor, req, newId, now).0.value.1;
      && a == NewAnalysis(req, actor, now)
      && a.fileId in files && a.xAxis in files[a.fileId].columns && a.yAxis in files[a.fileId].columns
      && a.chartType.Name() == req.chartType.value
  {
    assert StageOf(files, actor, req) == Accepted;
    RouteAndSchemaAgreeOnChartTypes(req.chartType.value);
  }

  /** Configurations are created by the caller, even when an admin works on
      someone else's file; the file's owner is not recorded. */
  lemma AdminCreatesUnderOwnId(files: FileStore, analyses: AnalysisStore, admin: Profile, req: AnalysisRequest,
                               newId: AnalysisId, now: int)
    requires newId !in analyses && admin.role == "admin"
    requires StageOf(files, admin, req) != MissingField && StageOf(files, admin, req) != BadChartType
    requires req.fileId.value in files && files[req.fileId.value].owner != admin.id
    requires req.xAxis.value in files[req.fileId.value].columns && req.yAxis.value in files[req.fileId.value].columns
    ensures var res := CreateAnalysis(files, analyses, admin, req, newId, now);
      res.0.Success? && res.0.value.1.userId == admin.id && res.0.value.1.userId != files[req.fileId.value].owner
  {
  }

  /** Once the body is complete and names a known chart kind, a caller who
      neither owns the file nor is an admin is refused with 403 whatever
      axes the request names. */
  lemma StrangerIsRefusedWhateverTheAxes(files: FileStore, analyses: AnalysisStore, actor: Profile,
                                         req: AnalysisRequest, x: string, y: string, newId: AnalysisId, now: int)
    requires newId !in analyses
    requires HasRequiredFields(req) && req.chartType.value in ROUTE_CHART_TYPES
    requires req.fileId.value in files && !CanAccess(files[req.fileId.value].owner, actor)
    requires x != "" && y != ""
    ensures var req' := req.(xAxis := Some(x), yAxis := Some(y));
      CreateAnalysis(files, analyses, actor, req', newId, now).0.Rejects(FORBIDDEN, "Access denied")
  {
  }

  /** `r` lists exactly the configurations of file `fileId`, each once,
      newest first. */
  ghost predicate IsAnalysisListing(analyses: AnalysisStore, fileId: FileId, r: seq<(AnalysisId, Analysis)>) {
    && (forall e :: e in r <==> e.0 in analyses && analyses[e.0] == e.1 && e.1.fileId == fileId)
    && (forall i, j :: 0 <= i < j < |r| ==> r[i].0 != r[j].0 && r[i].1.createdAt >= r[j].1.createdAt)
  }

  /** `GET /:fileId`: after the same existence and access checks, every
      configuration of the file, whoever created it, newest first. */
  method ListAnalyses(files: FileStore, analyses: AnalysisStore, actor: Profile, fileId: FileId)
    returns (r: Reply<seq<(AnalysisId, Analysis)>>)
    ensures fileId !in files ==> r.Rejects(NOT_FOUND, "File not found")
    ensures fileId in files && !CanAccess(files[fileId].owner, actor) ==> r.Rejects(FORBIDDEN, "Access denied")
    ensures r.Success? <==> fileId in files && CanAccess(files[fileId].owner, actor)
    ensures r.Success? ==> r.status == OK && IsAnalysisListing(analyses, fileId, r.value)
  {
    if fileId !in files {
      return Fail(NOT_FOUND, "File not found");
    }
    if !CanAccess(files[fileId].owner, actor) {
      return Fail(FORBIDDEN, "Access denied");
    }
    var ids := SelectNewestFirst(analyses, (a: Analysis) => a.fileId == fileId, (a: Analysis) => a.createdAt);
    var found := seq(|ids|, i requires 0 <= i < |ids| => (ids[i], analyses[ids[i]]));
    forall e: (AnalysisId, Analysis) | e.0 in analyses && analyses[e.0] == e.1 && e.1.fileId == fileId
      ensures e in found
    {
      var i :| 0 <= i < |ids| && ids[i] == e.0;
      assert found[i] == e;
    }
    return Success(OK, found);
  }

  /** A configuration just created shows up in every later listing of its
      file, and the listing grows by exactly that one entry. */
  lemma CreatedAnalysisIsListed(files: FileStore, analyses: AnalysisStore, actor: Profile, req: AnalysisRequest,
                                newId: AnalysisId, now: int, before: seq<(AnalysisId, Analysis)>, after: seq<(AnalysisId, Analysis)>)
    requires newId !in analyses
    requires CreateAnalysis(files, analyses, actor, req, newId, now).0.Success?
    requires IsAnalysisListing(analyses, req.fileId.value, before)
    requires IsAnalysisListing(CreateAnalysis(files, analyses, actor, req, newId, now).1, req.fileId.value, after)
    ensures CreateAnalysis(files, analyses, actor, req, newId, now).0.value in after
    ensures forall e :: e in after <==> e in before || e == CreateAnalysis(files, analyses, actor, req, newId, now).0.value
  {
  }
}

=== FILE: analysis_model.dfy ===
/** A saved chart configuration: which file, which two columns, which kind
    of chart, and free-form options. The chart kind is restricted by the
    schema to a fixed set of names. */
module AnalysisModel {

  import opened Basics
  import opened Rows
  import opened Auth
  import opened FileModel

  type AnalysisId = string

  datatype ChartType = Bar | Line | Pie | Scatter | Bar3D
  {
    /** The name the schema and the client use. */
    function Name(): string {
      match this
      case Bar => "bar"
      case Line => "line"
      case Pie => "pie"
      case Scatter => "scatter"
      case Bar3D => "3d-bar"
    }
  }

  /** The schema's enum check: the chart kind with this name, if any. */
  function ChartTypeNamed(s: string): (t: Option<ChartType>)
    ensures t.Some? ==> t.value.Name() == s
    ensures t.None? ==> s !in {"bar", "line", "pie", "scatter", "3d-bar"}
  {
    if s == "bar" then Some(Bar)
    else if s == "line" then Some(Line)
    else if s == "pie" then Some(Pie)
    else if s == "scatter" then Some(Scatter)
    else if s == "3d-bar" then Some(Bar3D)
    else None
  }

  /** Names and chart kinds correspond one to one. */
  lemma ChartTypeNameRoundTrip(t: ChartType)
    ensures ChartTypeNamed(t.Name()) == Some(t)
  {
  }

  /** Free-form `options`; an absent value stands for the empty object. */
  type Options = map<string, Cell>

  datatype Analysis = Analysis(
    fileId: FileId,
    userId: UserId,
    xAxis: string,
    yAxis: string,
    chartType: ChartType,
    createdAt: int,
    options: Options)

  /** The analysis collection, by document id. */
  type AnalysisStore = map<AnalysisId, Analysis>

  /** The schema's checks on the required text fields. */
  function MissingAnalysisFields(a: Analysis): (errors: seq<string>)
    ensures errors == [] <==> a.xAxis != "" && a.yAxis != ""
  {
    (if a.xAxis == "" then ["Path `xAxis` is required."] else [])
    + (if a.yAxis == "" then ["Path `yAxis` is required."] else [])
  }
}

=== FILE: auth.dfy ===
/** Authentication and the two authorization rules of the service: the
    bearer-token middleware, the admin-only gate, and the owner-or-admin
    rule every file-scoped route applies. Signature checking of the token
    and the user lookup are inputs: `verify` stands for the token library,
    `users` for the user collection. */
module Auth {

  import opened Basics
  import opened Http
  import opened Strings
  import ErrorHandler

  type UserId = string

  /** A stored account; its id is its key in the user collection. */
  datatype User = User(
    name: string,
    email: string,
    passwordHash: string,
    role: string,
    createdAt: int)

  /** An account as it is ever handed out: without its password hash. */
  datatype Profile = Profile(id: UserId, name: string, email: string, role: string, createdAt: int)

  /** The user collection, by id. */
  type Users = map<UserId, User>

  function ProfileOf(id: UserId, u: User): (p: Profile)
    ensures p.id == id && p.name == u.name && p.email == u.email
    ensures p.role == u.role && p.createdAt == u.createdAt
  {
    Profile(id, u.name, u.email, u.role, u.createdAt)
  }

  const BEARER: string := "Bearer "

  /** The owner-or-admin rule. */
  predicate CanAccess(owner: UserId, actor: Profile) {
    owner == actor.id || actor.role == "admin"
  }

  /** `authHeader.split(' ')[1]` for a header starting with "Bearer ": the
      text after the first space up to the next space or the end. */
  function BearerToken(header: string): (token: string)
    requires StartsWith(header, BEARER)
    ensures ' ' !in token
    ensures StartsWith(header, BEARER + token)
    ensures |header| == |BEARER| + |token| || header[|BEARER| + |token|] == ' '
  {
    assert header[..6] == "Bearer";
    SplitSecond(header, ' ', 6);
    Split(header, ' ')[1]
  }

  /** The header a client sends for a token without spaces yields that token. */
  lemma BearerTokenRoundTrip(token: string)
    requires ' ' !in token
    ensures StartsWith(BEARER + token, BEARER)
    ensures BearerToken(BEARER + token) == token
  {
    var header := BEARER + token;
    assert header[..|BEARER|] == BEARER;
    assert header == "Bearer" + [' '] + token;
    SplitAfterPrefix("Bearer", ' ', token);
    assert Split(token, ' ') == [token];
  }

  /** What the token library reports for a token: the user id it carries,
      or the name of the error it throws. */
  datatype Decoded = Decoded(userId: UserId) | Thrown(name: string)

  /** The result of the bearer-token middleware: the request goes on with
      the caller's profile attached, or is answered right away. */
  datatype AuthOutcome = Authenticated(user: Profile) | Rejected(status: nat, error: string)

  predicate HasBearer(authorization: Option<string>) {
    authorization.Some? && StartsWith(authorization.value, BEARER)
  }

  function VerifyToken(authorization: Option<string>, verify: string -> Decoded, users: Users): (r: AuthOutcome)
    ensures !HasBearer(authorization) ==> r == Rejected(UNAUTHORIZED, "No token provided")
    ensures r.Authenticated? <==>
      HasBearer(authorization)
      && verify(BearerToken(authorization.value)).Decoded?
      && verify(BearerToken(authorization.value)).userId in users
    ensures r.Authenticated? ==>
      r.user == ProfileOf(verify(BearerToken(authorization.value)).userId,
                          users[verify(BearerToken(authorization.value)).userId])
    ensures (HasBearer(authorization) && verify(BearerToken(authorization.value)).Decoded?
             && verify(BearerToken(authorization.value)).userId !in users) ==>
      r == Rejected(UNAUTHORIZED, "User not found")
    ensures HasBearer(authorization) && verify(BearerToken(authorization.value)).Thrown? ==>
      r == ClassifyThrown(verify(BearerToken(authorization.value)).name)
  {
    if !HasBearer(authorization) then Rejected(UNAUTHORIZED, "No token provided")
    else
      match verify(BearerToken(authorization.value))
      case Decoded(id) =>
        if id in users then Authenticated(ProfileOf(id, users[id]))
        else Rejected(UNAUTHORIZED, "User not found")
      case Thrown(name) => ClassifyThrown(name)
  }

  /** The catch block of the middleware. */
  function ClassifyThrown(name: string): (r: AuthOutcome)
    ensures r.Rejected?
    ensures r.status == SERVER_ERROR <==> name !in {"JsonWebTokenError", "TokenExpiredError"}
    ensures name in {"JsonWebTokenError", "TokenExpiredError"} ==> r.status == UNAUTHORIZED
    ensures name == "JsonWebTokenError" ==> r.error == "Invalid token"
    ensures name == "TokenExpiredError" ==> r.error == "Token expired"
    ensures r.status == SERVER_ERROR ==> r.error == "Authentication failed"
  {
    if name == "JsonWebTokenError" then Rejected(UNAUTHORIZED, "Invalid token")
    else if name == "TokenExpiredError" then Rejected(UNAUTHORIZED, "Token expired")
    else Rejected(SERVER_ERROR, "Authentication failed")
  }

  /** Every refusal of the middleware is a 401, except an unexpected
      failure of the token library, which is a 500. */
  lemma RejectionsAreUnauthorizedOrInternal(authorization: Option<string>, verify: string -> Decoded, users: Users)
    ensures var r := VerifyToken(authorization, verify, users);
      r.Rejected? ==> r.status in {UNAUTHORIZED, SERVER_ERROR}
  {
  }

  /** The middleware and the application error handler word the two token
      errors the same way. */
  lemma TokenErrorsAgreeWithErrorHandler(name: string)
    requires name in {"JsonWebTokenError", "TokenExpiredError"}
    ensures var handled := ErrorHandler.Handle<()>(ErrorHandler.ErrorInfo(name, ErrorHandler.NoCode, None, None, []));
      ClassifyThrown(name) == Rejected(handled.status, handled.body.error)
  {
  }

  /** The result of the admin gate. */
  datatype Gate = Next | Deny(status: nat, error: string)

  /** `isAdmin`: lets the request through only with an attached admin. */
  function IsAdmin(user: Option<Profile>): (g: Gate)
    ensures g.Next? <==> user.Some? && user.value.role == "admin"
    ensures g.Deny? ==> g == Deny(FORBIDDEN, "Admin access required")
  {
    if user.Some? && user.value.role == "admin" then Next else Deny(FORBIDDEN, "Admin access required")
  }

  /** `verifyToken` followed by `isAdmin`, the chain in front of every
      admin route: the caller's profile when both let the request through,
      otherwise the reply of the first one that stops it. */
  function AdminOnly(authorization: Option<string>, verify: string -> Decoded, users: Users): (r: Reply<Profile>)
    ensures var auth := VerifyToken(authorization, verify, users);
      && (r.Success? <==> auth.Authenticated? && auth.user.role == "admin")
      && (r.Success? ==> r.value == auth.user)
      && (auth.Rejected? ==> r.Rejects(auth.status, auth.error))
      && (auth.Authenticated? && auth.user.role != "admin" ==> r.Rejects(FORBIDDEN, "Admin access required"))
  {
    match VerifyToken(authorization, verify, users)
    case Rejected(status, error) => Fail(status, error)
    case Authenticated(user) =>
      match IsAdmin(Some(user))
      case Next => Success(OK, user)
      case Deny(status, error) => Fail(status, error)
  }
}

=== FILE: basics.dfy ===
/** Small shared vocabulary: optional values, sequences without repeats,
    and the minimum of two numbers. */
module Basics {

  datatype Option<+T> = None | Some(value: T)

  predicate Distinct<T(==)>(s: seq<T>) {
    forall i, j :: 0 <= i < j < |s| ==> s[i] != s[j]
  }

  function Min(a: int, b: int): int {
    if a <= b then a else b
  }
}

=== FILE: errors.dfy ===
/** The application-wide error handler: every error a route forwards with
    `next(error)` (or that a middleware raises) becomes a status and a JSON
    body here. The checks are made in a fixed order and the first one that
    matches decides the reply. */
module ErrorHandler {

  import opened Basics
  import opened Http

  /** `err.code`: absent, a number (MongoDB driver errors) or a string
      (for example the upload library's `LIMIT_FILE_SIZE`). */
  datatype ErrorCode = NoCode | NumericCode(number: int) | TextCode(text: string)

  /** The parts of a thrown error that the handler reads: its `name`,
      `code`, `status`, `message`, and for a schema validation error the
      messages of its sub-errors in `Object.values` order. */
  datatype ErrorInfo = ErrorInfo(
    name: string,
    code: ErrorCode,
    status: Option<nat>,
    message: Option<string>,
    subErrors: seq<string>)

  const DUPLICATE_KEY: int := 11000

  /** A plain `new Error(message)`. */
  function PlainError(message: string): ErrorInfo {
    ErrorInfo("Error", NoCode, None, Some(message), [])
  }

  /** `err.status || 500`: a missing or zero status means 500. */
  function StatusOrDefault(status: Option<nat>): (s: nat)
    ensures s != 0
    ensures status.Some? && status.value != 0 ==> s == status.value
    ensures !(status.Some? && status.value != 0) ==> s == SERVER_ERROR
  {
    if status.Some? && status.value != 0 then status.value else SERVER_ERROR
  }

  /** `err.message || 'Internal server error'`: a missing or empty message
      is replaced. */
  function MessageOrDefault(message: Option<string>): (m: string)
    ensures m != ""
    ensures message.Some? && message.value != "" ==> m == message.value
    ensures !(message.Some? && message.value != "") ==> m == "Internal server error"
  {
    if message.Some? && message.value != "" then message.value else "Internal server error"
  }

  function Handle<T>(err: ErrorInfo): (r: Reply<T>)
    ensures r.Failure?
    ensures err.name == "ValidationError" ==>
      r == Failure(BAD_REQUEST, ErrorBody("Validation error", DetailList(err.subErrors)))
    ensures err.name != "ValidationError" && err.code == NumericCode(DUPLICATE_KEY) ==>
      r == Failure(BAD_REQUEST, ErrorBody("Duplicate entry", DetailText("This record already exists")))
    ensures err.name == "JsonWebTokenError" && err.code != NumericCode(DUPLICATE_KEY) ==>
      r == Fail(UNAUTHORIZED, "Invalid token")
    ensures err.name == "TokenExpiredError" && err.code != NumericCode(DUPLICATE_KEY) ==>
      r == Fail(UNAUTHORIZED, "Token expired")
    ensures err.name !in {"ValidationError", "JsonWebTokenError", "TokenExpiredError"} && err.code != NumericCode(DUPLICATE_KEY) ==>
      r == Fail(StatusOrDefault(err.status), MessageOrDefault(err.message))
  {
    if err.name == "ValidationError" then
      Failure(BAD_REQUEST, ErrorBody("Validation error", DetailList(err.subErrors)))
    else if err.code == NumericCode(DUPLICATE_KEY) then
      Failure(BAD_REQUEST, ErrorBody("Duplicate entry", DetailText("This record already exists")))
    else if err.name == "JsonWebTokenError" then
      Fail(UNAUTHORIZED, "Invalid token")
    else if err.name == "TokenExpiredError" then
      Fail(UNAUTHORIZED, "Token expired")
    else
      Fail(StatusOrDefault(err.status), MessageOrDefault(err.message))
  }

  /** Only an error that names its own status can produce a status other
      than 400, 401 or 500, and the handler never answers with a success
      status unless the error asked for one. */
  lemma StatusComesFromTheTaxonomy(err: ErrorInfo)
    ensures var r := Handle<()>(err);
      r.status in {BAD_REQUEST, UNAUTHORIZED, SERVER_ERROR} || (err.status.Some? && r.status == err.status.value)
  {
  }

  /** A schema validation error reports one detail per failed field, in
      order, even when it also carries the duplicate-key code. */
  lemma ValidationReportsEverySubError(err: ErrorInfo)
    requires err.name == "ValidationError"
    ensures var r := Handle<()>(err);
      r.status == BAD_REQUEST && r.body.details.DetailList? && |r.body.details.messages| == |err.subErrors|
      && forall k :: 0 <= k < |err.subErrors| ==> r.body.details.messages[k] == err.subErrors[k]
  {
  }

  /** An error thrown without a status or a message is answered with a
      generic internal failure that does not reveal its name. */
  lemma UnclassifiedErrorIsGeneric(name: string)
    requires name !in {"ValidationError", "JsonWebTokenError", "TokenExpiredError"}
    ensures Handle<()>(ErrorInfo(name, NoCode, None, None, [])) == Fail(SERVER_ERROR, "Internal server error")
  {
  }
}

=== FILE: file_model.dfy ===
/** The stored description of one uploaded workbook. Every field is
    required by the schema; `uploadedAt` is filled in with the creation
    time. Only the first rows are kept (`sampleData`); `rowCount` counts all
    rows of the first sheet. */
module FileModel {

  import opened Basics
  import opened Http
  import opened Rows
  import opened Auth

  type FileId = string

  /** How many rows of an upload are kept. */
  const SAMPLE_LIMIT: nat := 100

  datatype FileRecord = FileRecord(
    owner: UserId,
    originalName: string,
    mimeType: string,
    size: nat,
    uploadedAt: int,
    columns: seq<string>,
    rowCount: nat,
    sampleData: seq<Row>)

  /** The file collection, by document id. */
  type FileStore = map<FileId, FileRecord>

  /** The shape ingestion gives every record: as many kept rows as the
      limit allows, each holding exactly the file's columns. */
  ghost predicate Consistent(f: FileRecord) {
    && |f.sampleData| == Min(f.rowCount, SAMPLE_LIMIT)
    && forall i :: 0 <= i < |f.sampleData| ==>
         f.sampleData[i].keys == f.columns && f.sampleData[i].cells.Keys == set c | c in f.columns
  }

  ghost predicate StoreConsistent(store: FileStore) {
    forall id :: id in store ==> Consistent(store[id])
  }

  /** The schema's checks on the required text fields: a required string
      path fails when it is empty. The messages come in schema order. */
  function MissingFileFields(f: FileRecord): (errors: seq<string>)
    ensures errors == [] <==> f.originalName != "" && f.mimeType != ""
    ensures |errors| <= 2
  {
    (if f.originalName == "" then ["Path `originalName` is required."] else [])
    + (if f.mimeType == "" then ["Path `mimeType` is required."] else [])
  }

  /** A record as the upload history lists it: everything but the kept rows. */
  datatype FileSummary = FileSummary(
    id: FileId,
    owner: UserId,
    originalName: string,
    mimeType: string,
    size: nat,
    uploadedAt: int,
    columns: seq<string>,
    rowCount: nat)

  function Summarize(id: FileId, f: FileRecord): (s: FileSummary)
    ensures s.id == id && s.owner == f.owner && s.uploadedAt == f.uploadedAt
    ensures s.originalName == f.originalName && s.mimeType == f.mimeType && s.size == f.size
    ensures s.columns == f.columns && s.rowCount == f.rowCount
  {
    FileSummary(id, f.owner, f.originalName, f.mimeType, f.size, f.uploadedAt, f.columns, f.rowCount)
  }

  /** The existence check, then the owner-or-admin check, shared by every
      route that addresses one file. */
  function Locate(store: FileStore, actor: Profile, id: FileId): (r: Reply<FileRecord>)
    ensures id !in store ==> r.Rejects(NOT_FOUND, "File not found")
    ensures id in store && !CanAccess(store[id].owner, actor) ==> r.Rejects(FORBIDDEN, "Access denied")
    ensures r.Success? <==> id in store && CanAccess(store[id].owner, actor)
    ensures r.Success? ==> r.value == store[id]
  {
    if id !in store then Fail(NOT_FOUND, "File not found")
    else if !CanAccess(store[id].owner, actor) then Fail(FORBIDDEN, "Access denied")
    else Success(OK, store[id])
  }
}

=== FILE: files.dfy ===
/** The file routes: the upload filter, ingestion of the parsed first sheet
    (column list, kept rows, row count), and the history, read and delete
    handlers over the file collection. Decoding the workbook is an input:
    `Parse` is what the spreadsheet library produced. */
module Files {

  import opened Basics
  import opened Http
  import opened Strings
  import opened Rows
  import opened Listing
  import opened ErrorHandler
  import opened Auth
  import opened FileModel

  const XLS_MIME: string := "application/vnd.ms-excel"
  const XLSX_MIME: string := "application/vnd.openxmlformats-officedocument.spreadsheetml.sheet"

  /** Largest accepted upload, in bytes. */
  const MAX_UPLOAD_BYTES: nat := 10 * 1024 * 1024

  /** The upload filter: an Excel mime type or an Excel file name is enough. */
  predicate AcceptsUpload(mimeType: string, originalName: string) {
    mimeType == XLS_MIME || mimeType == XLSX_MIME
    || EndsWith(originalName, ".xls") || EndsWith(originalName, ".xlsx")
  }

  /** Either signal alone is enough: an Excel file name passes with any
      declared type, and an Excel type passes with any file name. */
  lemma FilterTrustsEitherSignal(name: string, mimeType: string)
    ensures AcceptsUpload(mimeType, name + ".xls") && AcceptsUpload(mimeType, name + ".xlsx")
    ensures AcceptsUpload(XLS_MIME, name) && AcceptsUpload(XLSX_MIME, name)
  {
    assert (name + ".xls")[|name + ".xls"| - 4..] == ".xls";
    assert (name + ".xlsx")[|name + ".xlsx"| - 5..] == ".xlsx";
  }

  /** The error the filter raises for anything else. */
  const REJECTED_TYPE: ErrorInfo := PlainError("Only Excel files (.xls, .xlsx) are allowed")

  /** The error the upload library raises past the size limit. */
  const TOO_LARGE: ErrorInfo := ErrorInfo("MulterError", TextCode("LIMIT_FILE_SIZE"), None, Some("File too large"), [])

  /** The columns of a file: the keys of its first row, in order. */
  function Columns(data: seq<Row>): (columns: seq<string>)
    requires |data| > 0
    ensures |columns| == |data[0].keys|
    ensures forall k :: 0 <= k < |columns| ==> columns[k] == data[0].keys[k]
    ensures data[0].WellFormed() ==> Distinct(columns) && forall c :: c in columns <==> c in data[0].cells
  {
    data[0].keys
  }

  /** The kept rows: the first `SAMPLE_LIMIT` rows in sheet order, each cut
      down to exactly the file's columns. */
  function Sample(data: seq<Row>, columns: seq<string>): (sample: seq<Row>)
    ensures |sample| == Min(|data|, SAMPLE_LIMIT)
    ensures forall i :: 0 <= i < |sample| ==> sample[i].keys == columns
    ensures forall i :: 0 <= i < |sample| ==> forall c :: c in sample[i].cells <==> c in columns
    ensures forall i, c :: 0 <= i < |sample| && c in columns ==> sample[i].Get(c) == data[i].Get(c)
  {
    seq(Min(|data|, SAMPLE_LIMIT), i requires 0 <= i < Min(|data|, SAMPLE_LIMIT) => Project(data[i], columns))
  }

  /** Rows past the limit never reach the stored record. */
  lemma SampleIgnoresLaterRows(data: seq<Row>, more: seq<Row>, columns: seq<string>)
    requires |data| >= SAMPLE_LIMIT
    ensures Sample(data + more, columns) == Sample(data, columns)
  {
    var a := Sample(data + more, columns);
    var b := Sample(data, columns);
    forall i | 0 <= i < |a| ensures a[i] == b[i] {
      assert (data + more)[i] == data[i];
    }
  }

  /** When the kept rows all have exactly the file's columns, nothing is
      lost: the sample is the prefix of the sheet itself. */
  lemma SampleOfUniformRows(data: seq<Row>, columns: seq<string>)
    requires forall i :: 0 <= i < Min(|data|, SAMPLE_LIMIT) ==> data[i].WellFormed() && data[i].keys == columns
    ensures Sample(data, columns) == data[..Min(|data|, SAMPLE_LIMIT)]
  {
    var s := Sample(data, columns);
    forall i | 0 <= i < |s| ensures s[i] == data[i] {
      ProjectKeepsMatchingRow(data[i], columns);
    }
  }

  /** What the spreadsheet library produced from the uploaded bytes: the
      rows of the first sheet, or the message of the error it threw. */
  datatype Parse = Parsed(rows: seq<Row>) | Unreadable(message: string)

  /** The uploaded file as the upload library describes it. */
  datatype Upload = Upload(originalName: string, mimeType: string, size: nat, parse: Parse)

  /** The reply to an upload. Unlike a later read, it carries every parsed
      row in `fullData`. */
  datatype UploadView = UploadView(
    id: FileId,
    originalName: string,
    uploadedAt: int,
    columns: seq<string>,
    rowCount: nat,
    sampleData: seq<Row>,
    fullData: seq<Row>)

  /** The record an accepted upload of non-empty `rows` creates. */
  function Ingest(owner: UserId, file: Upload, rows: seq<Row>, now: int): (f: FileRecord)
    requires |rows| > 0
    ensures f.owner == owner && f.uploadedAt == now
    ensures f.originalName == file.originalName && f.mimeType == file.mimeType && f.size == file.size
    ensures f.columns == rows[0].keys
    ensures f.rowCount == |rows| && f.rowCount >= |f.sampleData|
    ensures f.sampleData == Sample(rows, rows[0].keys)
    ensures Consistent(f)
  {
    var columns := Columns(rows);
    var f := FileRecord(owner, file.originalName, file.mimeType, file.size, now, columns, |rows|, Sample(rows, columns));
    assert forall i :: 0 <= i < |f.sampleData| ==> f.sampleData[i].cells.Keys == set c | c in columns;
    f
  }

  /** Every check an upload passes before its record is saved. */
  predicate Admissible(file: Option<Upload>) {
    && file.Some?
    && AcceptsUpload(file.value.mimeType, file.value.originalName)
    && file.value.size <= MAX_UPLOAD_BYTES
    && file.value.parse.Parsed?
    && |file.value.parse.rows| > 0
  }

  /** `POST /upload` after authentication: the filter and the size limit of
      the upload library, then the handler. `newId` and `now` are the id and
      time the database assigns. */
  function UploadFile(store: FileStore, actor: Profile, file: Option<Upload>, newId: FileId, now: int): (res: (Reply<UploadView>, FileStore))
    requires newId !in store
    ensures res.0.Success? <==>
      Admissible(file) && MissingFileFields(Ingest(actor.id, file.value, file.value.parse.rows, now)) == []
    ensures res.0.Failure? ==> res.1 == store
    ensures res.0.Success? ==>
      var rows := file.value.parse.rows;
      && res.1 == store[newId := Ingest(actor.id, file.value, rows, now)]
      && res.0.status == CREATED
      && res.0.value == UploadView(newId, file.value.originalName, now, rows[0].keys, |rows|, Sample(rows, rows[0].keys), rows)
    ensures file.Some? && !AcceptsUpload(file.value.mimeType, file.value.originalName) ==>
      res.0 == Handle(REJECTED_TYPE)
    ensures file.Some? && AcceptsUpload(file.value.mimeType, file.value.originalName) && file.value.size > MAX_UPLOAD_BYTES ==>
      res.0 == Handle(TOO_LARGE)
    ensures file.None? ==> res.0.Rejects(BAD_REQUEST, "No file uploaded")
    ensures (file.Some? && AcceptsUpload(file.value.mimeType, file.value.originalName)
             && file.value.size <= MAX_UPLOAD_BYTES && file.value.parse.Unreadable?) ==>
      res.0 == Handle(PlainError(file.value.parse.message))
    ensures Admissible(file) && MissingFileFields(Ingest(actor.id, file.value, file.value.parse.rows, now)) != [] ==>
      res.0 == Handle(ErrorInfo("ValidationError", NoCode, None, None,
                                MissingFileFields(Ingest(actor.id, file.value, file.value.parse.rows, now))))
    ensures (file.Some? && AcceptsUpload(file.value.mimeType, file.value.originalName)
             && file.value.size <= MAX_UPLOAD_BYTES && file.value.parse == Parsed([])) ==>
      res.0.Rejects(BAD_REQUEST, "Excel file is empty")
  {
    match file
    case None => (Fail(BAD_REQUEST, "No file uploaded"), store)
    case Some(upload) =>
      if !AcceptsUpload(upload.mimeType, upload.originalName) then (Handle(REJECTED_TYPE), store)
      else if upload.size > MAX_UPLOAD_BYTES then (Handle(TOO_LARGE), store)
      else
        match upload.parse
        case Unreadable(message) => (Handle(PlainError(message)), store)
        case Parsed(rows) =>
          if |rows| == 0 then (Fail(BAD_REQUEST, "Excel file is empty"), store)
          else
            var record := Ingest(actor.id, upload, rows, now);
            var errors := MissingFileFields(record);
            if errors != [] then
              (Handle(ErrorInfo("ValidationError", NoCode, None, None, errors)), store)
            else
              var view := UploadView(newId, record.originalName, record.uploadedAt, record.columns,
                                     record.rowCount, record.sampleData, rows);
              (Success(CREATED, view), store[newId := record])
  }

  /** Files the filter turns away, files over the limit and workbooks the
      library cannot read all end in the generic error handler with a 500;
      an empty workbook or a missing file is a 400. */
  lemma UploadFailureStatuses(store: FileStore, actor: Profile, file: Option<Upload>, newId: FileId, now: int)
    requires newId !in store
    requires file.Some? && (!AcceptsUpload(file.value.mimeType, file.value.originalName) || file.value.size > MAX_UPLOAD_BYTES || file.value.parse.Unreadable?)
    ensures UploadFile(store, actor, file, newId, now).0.status == SERVER_ERROR
  {
  }

  /** Uploads keep every stored record in the shape ingestion gives it. */
  lemma UploadKeepsStoreConsistent(store: FileStore, actor: Profile, file: Option<Upload>, newId: FileId, now: int)
    requires newId !in store && StoreConsistent(store)
    ensures StoreConsistent(UploadFile(store, actor, file, newId, now).1)
  {
  }

  /** The reply to a read: the kept rows are also handed out as `fullData`. */
  datatype FileView = FileView(
    id: FileId,
    originalName: string,
    uploadedAt: int,
    columns: seq<string>,
    rowCount: nat,
    sampleData: seq<Row>,
    fullData: seq<Row>)

  /** `GET /:fileId` */
  function GetFile(store: FileStore, actor: Profile, id: FileId): (r: Reply<FileView>)
    ensures id !in store ==> r.Rejects(NOT_FOUND, "File not found")
    ensures id in store && !CanAccess(store[id].owner, actor) ==> r.Rejects(FORBIDDEN, "Access denied")
    ensures r.Success? <==> id in store && CanAccess(store[id].owner, actor)
    ensures r.Success? ==>
      var f := store[id];
      && r.status == OK
      && r.value.id == id && r.value.originalName == f.originalName && r.value.uploadedAt == f.uploadedAt
      && r.value.columns == f.columns && r.value.rowCount == f.rowCount
      && r.value.sampleData == f.sampleData && r.value.fullData == f.sampleData
  {
    match Locate(store, actor, id)
    case Failure(status, body) => Failure(status, body)
    case Success(_, f) =>
      Success(OK, FileView(id, f.originalName, f.uploadedAt, f.columns, f.rowCount, f.sampleData, f.sampleData))
  }

  datatype Deleted = Deleted(message: string, id: FileId)

  /** `DELETE /:fileId` */
  function DeleteFile(store: FileStore, actor: Profile, id: FileId): (res: (Reply<Deleted>, FileStore))
    ensures id !in store ==> res.0.Rejects(NOT_FOUND, "File not found")
    ensures id in store && !CanAccess(store[id].owner, actor) ==> res.0.Rejects(FORBIDDEN, "Access denied")
    ensures res.0.Success? <==> id in store && CanAccess(store[id].owner, actor)
    ensures res.0.Failure? ==> res.1 == store
    ensures res.0.Success? ==> res.0 == Success(OK, Deleted("File deleted successfully", id))
    ensures res.0.Success? ==>
      && id !in res.1
      && res.1.Keys == store.Keys - {id}
      && forall k :: k in res.1 ==> res.1[k] == store[k]
  {
    match Locate(store, actor, id)
    case Failure(status, body) => (Failure(status, body), store)
    case Success(_, _) => (Success(OK, Deleted("File deleted successfully", id)), store - {id})
  }

  /** Deletes keep every remaining record in the shape ingestion gives it. */
  lemma DeleteKeepsStoreConsistent(store: FileStore, actor: Profile, id: FileId)
    requires StoreConsistent(store)
    ensures StoreConsistent(DeleteFile(store, actor, id).1)
  {
  }

  /** Reading back an upload returns what ingestion kept: the first row's
      keys as columns, the full row count, and the kept rows as `fullData`. */
  lemma UploadThenGet(store: FileStore, actor: Profile, file: Option<Upload>, newId: FileId, now: int)
    requires newId !in store
    requires UploadFile(store, actor, file, newId, now).0.Success?
    ensures var rows := file.value.parse.rows;
      GetFile(UploadFile(store, actor, file, newId, now).1, actor, newId)
        == Success(OK, FileView(newId, file.value.originalName, now, rows[0].keys, |rows|,
                                Sample(rows, rows[0].keys), Sample(rows, rows[0].keys)))
  {
  }

  /** The uploader may delete what they uploaded, and that leaves the
      collection as it was before the upload. */
  lemma UploadThenDeleteRestores(store: FileStore, actor: Profile, file: Option<Upload>, newId: FileId, now: int)
    requires newId !in store
    requires UploadFile(store, actor, file, newId, now).0.Success?
    ensures var after := UploadFile(store, actor, file, newId, now).1;
      DeleteFile(after, actor, newId).0.Success? && DeleteFile(after, actor, newId).1 == store
  {
    var after := UploadFile(store, actor, file, newId, now).1;
    assert after - {newId} == store;
  }

  /** Once deleted, a file cannot be read by anyone. */
  lemma DeleteThenGet(store: FileStore, actor: Profile, id: FileId, reader: Profile)
    requires DeleteFile(store, actor, id).0.Success?
    ensures GetFile(DeleteFile(store, actor, id).1, reader, id).Rejects(NOT_FOUND, "File not found")
  {
  }

  /** `r` is a history of `caller`: the summaries of exactly the caller's
      records, each once, newest upload first. */
  ghost predicate IsHistory(store: FileStore, caller: UserId, r: seq<FileSummary>) {
    && (forall s :: s in r <==> s.id in store && store[s.id].owner == caller && s == Summarize(s.id, store[s.id]))
    && (forall i, j :: 0 <= i < j < |r| ==> r[i].id != r[j].id && r[i].uploadedAt >= r[j].uploadedAt)
  }

  /** `GET /history` */
  method History(store: FileStore, caller: UserId) returns (r: seq<FileSummary>)
    ensures IsHistory(store, caller, r)
  {
    var ids := SelectNewestFirst(store, (f: FileRecord) => f.owner == caller, (f: FileRecord) => f.uploadedAt);
    r := seq(|ids|, i requires 0 <= i < |ids| => Summarize(ids[i], store[ids[i]]));
    forall s: FileSummary | s.id in store && store[s.id].owner == caller && s == Summarize(s.id, store[s.id])
      ensures s in r
    {
      var i :| 0 <= i < |ids| && ids[i] == s.id;
      assert r[i] == s;
    }
  }

  /** Asking twice for the history of the same collection gives the same
      ordered list, as long as no two of the caller's uploads share a time. */
  lemma HistoryIsDetermined(store: FileStore, caller: UserId, a: seq<FileSummary>, b: seq<FileSummary>)
    requires IsHistory(store, caller, a) && IsHistory(store, caller, b)
    requires forall x, y :: x in store && y in store && x != y && store[x].owner == caller && store[y].owner == caller
               ==> store[x].uploadedAt != store[y].uploadedAt
    ensures a == b
  {
    var rank := (s: FileSummary) => s.uploadedAt;
    forall i, j | 0 <= i < j < |a| ensures rank(a[i]) > rank(a[j]) {
      assert a[i] in a && a[j] in a;
    }
    forall i, j | 0 <= i < j < |b| ensures rank(b[i]) > rank(b[j]) {
      assert b[i] in b && b[j] in b;
    }
    SameMembersSameOrder(a, b, rank);
  }
}

=== FILE: http.dfy ===
/** Shared shapes of the HTTP boundary: status codes and the reply every
    handler produces (a JSON body with a status). */
module Http {

  const OK: nat := 200
  const CREATED: nat := 201
  const BAD_REQUEST: nat := 400
  const UNAUTHORIZED: nat := 401
  const FORBIDDEN: nat := 403
  const NOT_FOUND: nat := 404
  const SERVER_ERROR: nat := 500

  /** The optional `details` member of an error body. */
  datatype Details = NoDetails | DetailList(messages: seq<string>) | DetailText(text: string)

  /** `{ error, details? }` */
  datatype ErrorBody = ErrorBody(error: string, details: Details)

  /** A response: a status with either the success payload or an error body. */
  datatype Reply<+T> = Success(status: nat, value: T) | Failure(status: nat, body: ErrorBody)
  {
    predicate Rejects(code: nat, message: string) {
      Failure? && status == code && body.error == message
    }
  }

  function Fail<T>(code: nat, message: string): Reply<T> {
    Failure(code, ErrorBody(message, NoDetails))
  }
}

=== FILE: insights.dfy ===
/** The insights route: a summary of a file is sent to a text-generation
    service when an API key is configured, and a locally generated text is
    returned otherwise or whenever the service fails. The service call is an
    input: `call` gives its outcome for a summary. */
module Insights {

  import opened Basics
  import opened Http
  import opened Strings
  import opened Rows
  import opened Auth
  import opened FileModel

  /** How many kept rows go into a summary. */
  const SUMMARY_ROWS: nat := 5

  datatype DataSummary = DataSummary(fileName: string, columns: seq<string>, rowCount: nat, sampleData: seq<Row>)

  function Summary(f: FileRecord): (s: DataSummary)
    ensures s.fileName == f.originalName && s.columns == f.columns && s.rowCount == f.rowCount
    ensures |s.sampleData| == Min(SUMMARY_ROWS, |f.sampleData|)
    ensures forall i :: 0 <= i < |s.sampleData| ==> s.sampleData[i] == f.sampleData[i]
  {
    DataSummary(f.originalName, f.columns, f.rowCount, f.sampleData[..Min(SUMMARY_ROWS, |f.sampleData|)])
  }

  const MOCK_OPENING: string := "This dataset contains "

  const MOCK_CLOSING: string :=
    ".\n\nBased on the column names and sample data, this appears to be a structured dataset that could "
    + "benefit from various types of visualizations. Consider using bar charts for categorical comparisons, "
    + "line charts for trends over time, or scatter plots to identify correlations between numeric variables."
    + "\n\nTo get AI-powered insights, configure the OPENAI_API_KEY environment variable in the backend."

  /** The locally generated text. */
  function MockInsights(s: DataSummary): (t: string)
    ensures StartsWith(t, MOCK_OPENING)
    ensures EndsWith(t, MOCK_CLOSING)
  {
    var rest := MockRest(s);
    EndsWithPrepend(Decimal(s.rowCount), rest, MOCK_CLOSING);
    EndsWithPrepend(MOCK_OPENING, Decimal(s.rowCount) + rest, MOCK_CLOSING);
    StartsWithConcat(MOCK_OPENING, Decimal(s.rowCount) + rest);
    MOCK_OPENING + (Decimal(s.rowCount) + rest)
  }

  /** The text after the row count. */
  function MockRest(s: DataSummary): (t: string)
    ensures |t| > 0 && t[0] == ' '
    ensures EndsWith(t, MOCK_CLOSING)
  {
    var tail := MockColumnList(s);
    EndsWithPrepend(Decimal(|s.columns|), tail, MOCK_CLOSING);
    EndsWithPrepend(" rows with ", Decimal(|s.columns|) + tail, MOCK_CLOSING);
    " rows with " + (Decimal(|s.columns|) + tail)
  }

  /** The text after the column count. */
  function MockColumnList(s: DataSummary): (t: string)
    ensures |t| > 0 && t[0] == ' '
    ensures EndsWith(t, MOCK_CLOSING)
  {
    var t := " columns: " + Join(s.columns, ", ") + MOCK_CLOSING;
    assert t[0] == " columns: "[0];
    EndsWithConcat(" columns: " + Join(s.columns, ", "), MOCK_CLOSING);
    t
  }

  /** The text depends on the row count and the columns only: neither the
      file name nor the sample rows change it. */
  lemma MockInsightsIgnoreNameAndSample(s: DataSummary, t: DataSummary)
    requires s.rowCount == t.rowCount && s.columns == t.columns
    ensures MockInsights(s) == MockInsights(t)
  {
  }

  /** A reader of the text recovers the row count from the number that
      follows the opening words. */
  lemma MockInsightsReportRowCount(s: DataSummary)
    ensures var text := MockInsights(s);
      && StartsWith(text, MOCK_OPENING)
      && AllDigits(LeadingDigits(text[|MOCK_OPENING|..]))
      && ParseNat(LeadingDigits(text[|MOCK_OPENING|..])) == s.rowCount
  {
    NumberAfterPrefix(MOCK_OPENING, Decimal(s.rowCount), MockRest(s));
    ParseDecimal(s.rowCount);
  }

  /** The row count is followed by the rest of the text. */
  lemma MockInsightsAfterRowCount(s: DataSummary)
    ensures MockInsights(s)[|MOCK_OPENING|..][|Decimal(s.rowCount)|..] == MockRest(s)
  {
    NumberAfterPrefix(MOCK_OPENING, Decimal(s.rowCount), MockRest(s));
    assert (Decimal(s.rowCount) + MockRest(s))[|Decimal(s.rowCount)|..] == MockRest(s);
  }

  /** After the row count come " rows with " and the number of columns,
      which a reader recovers from the digits that follow. */
  lemma MockInsightsReportColumnCount(s: DataSummary)
    ensures StartsWith(MockRest(s), " rows with ")
    ensures LeadingDigits(MockRest(s)[|" rows with "|..]) == Decimal(|s.columns|)
    ensures ParseNat(Decimal(|s.columns|)) == |s.columns|
  {
    NumberAfterPrefix(" rows with ", Decimal(|s.columns|), MockColumnList(s));
    ParseDecimal(|s.columns|);
  }

  /** The column count is followed by " columns: ", the column names joined
      by ", ", and the closing paragraphs. */
  lemma MockInsightsListColumns(s: DataSummary)
    ensures MockRest(s)[|" rows with "|..][|Decimal(|s.columns|)|..]
            == " columns: " + Join(s.columns, ", ") + MOCK_CLOSING
  {
    var count := Decimal(|s.columns|);
    var tail := MockColumnList(s);
    assert tail == " columns: " + Join(s.columns, ", ") + MOCK_CLOSING;
    assert MockRest(s)[|" rows with "|..] == count + tail;
    assert (count + tail)[|count|..] == tail;
  }

  /** What the text-generation service did with a request. */
  datatype CallOutcome =
    | Answered(content: string)   // a successful reply and its first choice
    | NotOk                       // a reply with an error status
    | Failed                      // the request or reading its reply threw

  datatype Insight = Insight(insights: string, source: string)

  const SOURCE_SERVICE: string := "openai"
  const SOURCE_NO_KEY: string := "mock (no API key configured)"
  const SOURCE_ERROR: string := "mock (OpenAI API error)"

  /** An API key counts as configured when it is set and not empty. */
  predicate KeyConfigured(apiKey: Option<string>) {
    apiKey.Some? && apiKey.value != ""
  }

  /** `POST /insights/:fileId`. The file collection is only read. */
  function GetInsights(store: FileStore, actor: Profile, id: FileId, apiKey: Option<string>,
                       call: DataSummary -> CallOutcome): (r: Reply<Insight>)
    ensures id !in store ==> r.Rejects(NOT_FOUND, "File not found")
    ensures id in store && !CanAccess(store[id].owner, actor) ==> r.Rejects(FORBIDDEN, "Access denied")
    ensures r.Success? <==> id in store && CanAccess(store[id].owner, actor)
    ensures r.Success? ==> r.status == OK
    ensures r.Success? ==>
      var s := Summary(store[id]);
      && (r.value.source == SOURCE_SERVICE <==> KeyConfigured(apiKey) && call(s).Answered?)
      && (r.value.source == SOURCE_SERVICE ==> r.value.insights == call(s).content)
      && (!KeyConfigured(apiKey) ==> r.value == Insight(MockInsights(s), SOURCE_NO_KEY))
      && (KeyConfigured(apiKey) && !call(s).Answered? ==> r.value == Insight(MockInsights(s), SOURCE_ERROR))
  {
    match Locate(store, actor, id)
    case Failure(status, body) => Failure(status, body)
    case Success(_, f) =>
      var summary := Summary(f);
      if KeyConfigured(apiKey) then
        match call(summary)
        case Answered(content) => Success(OK, Insight(content, SOURCE_SERVICE))
        case _ => Success(OK, Insight(MockInsights(summary), SOURCE_ERROR))
      else
        Success(OK, Insight(MockInsights(summary), SOURCE_NO_KEY))
  }

  /** Once the file is found and the caller may see it, the reply is a 200
      whatever the service does, and the only texts it can carry are the
      service's answer and the local text. */
  lemma ServiceFailureNeverSurfaces(store: FileStore, actor: Profile, id: FileId, apiKey: Option<string>,
                                    call: DataSummary -> CallOutcome)
    requires id in store && CanAccess(store[id].owner, actor)
    ensures var r := GetInsights(store, actor, id, apiKey, call);
      r.Success? && r.status == OK
      && r.value.source in {SOURCE_SERVICE, SOURCE_NO_KEY, SOURCE_ERROR}
      && (r.value.source != SOURCE_SERVICE ==> r.value.insights == MockInsights(Summary(store[id])))
  {
  }
}

=== FILE: listing.dfy ===
/** The MongoDB query shape `find(filter).sort({ stamp: -1 })` over one
    collection, modelled on a map from document id to document. The order of
    documents with equal stamps is left open, as it is in MongoDB. */
module Listing {

  import opened Basics

  /** Every listed key is a document of `m`, and stamps never increase
      along the list. */
  ghost predicate SortedNewestFirst<K, V>(m: map<K, V>, stamp: V -> int, ks: seq<K>) {
    && (forall i :: 0 <= i < |ks| ==> ks[i] in m)
    && (forall i, j :: 0 <= i < j < |ks| ==> stamp(m[ks[i]]) >= stamp(m[ks[j]]))
  }

  /** `ks` lists exactly the documents of `m` that satisfy `keep`, each
      once, newest first. */
  ghost predicate NewestFirst<K(!new), V>(m: map<K, V>, keep: V -> bool, stamp: V -> int, ks: seq<K>) {
    && Distinct(ks)
    && SortedNewestFirst(m, stamp, ks)
    && (forall k :: k in ks <==> k in m && keep(m[k]))
  }

  /** Where a document stamped `t` goes in a newest-first list: after every
      document at least as new, before the first older one. */
  function InsertionPoint<K, V>(m: map<K, V>, stamp: V -> int, ks: seq<K>, t: int): (p: nat)
    requires forall i :: 0 <= i < |ks| ==> ks[i] in m
    ensures p <= |ks|
    ensures forall i :: 0 <= i < p ==> stamp(m[ks[i]]) >= t
    ensures p < |ks| ==> stamp(m[ks[p]]) < t
  {
    if |ks| == 0 || stamp(m[ks[0]]) < t then 0
    else 1 + InsertionPoint(m, stamp, ks[1..], t)
  }

  /** The list with `k` placed at position `p`. */
  function InsertAt<K(!new)>(ks: seq<K>, k: K, p: nat): (r: seq<K>)
    requires p <= |ks|
    ensures |r| == |ks| + 1
    ensures forall i :: 0 <= i < |r| ==> r[i] == (if i < p then ks[i] else if i == p then k else ks[i - 1])
    ensures forall x :: x in r <==> x in ks || x == k
  {
    assert ks == ks[..p] + ks[p..];
    ks[..p] + [k] + ks[p..]
  }

  lemma InsertKeepsDistinct<K(!new)>(ks: seq<K>, k: K, p: nat)
    requires Distinct(ks) && k !in ks && p <= |ks|
    ensures Distinct(InsertAt(ks, k, p))
  {
    var r := InsertAt(ks, k, p);
    forall i, j | 0 <= i < j < |r| ensures r[i] != r[j] {
      if i < p && j > p {
        assert r[i] == ks[i] && r[j] == ks[j - 1];
      } else if i > p {
        assert r[i] == ks[i - 1] && r[j] == ks[j - 1];
      }
    }
  }

  lemma InsertKeepsOrder<K(!new), V>(m: map<K, V>, stamp: V -> int, ks: seq<K>, k: K, p: nat)
    requires SortedNewestFirst(m, stamp, ks)
    requires k in m
    requires p == InsertionPoint(m, stamp, ks, stamp(m[k]))
    ensures SortedNewestFirst(m, stamp, InsertAt(ks, k, p))
  {
    var t := stamp(m[k]);
    var r := InsertAt(ks, k, p);
    assert forall i :: 0 <= i < p ==> stamp(m[ks[i]]) >= t;
    assert forall j :: p <= j < |ks| ==> stamp(m[ks[j]]) < t by {
      forall j | p <= j < |ks| ensures stamp(m[ks[j]]) < t {
        assert p == j || stamp(m[ks[p]]) >= stamp(m[ks[j]]);
      }
    }
    forall i | 0 <= i < |r| ensures r[i] in m {
      assert r[i] == (if i < p then ks[i] else if i == p then k else ks[i - 1]);
    }
    forall i, j | 0 <= i < j < |r| ensures stamp(m[r[i]]) >= stamp(m[r[j]]) {
      if j < p {
        assert r[i] == ks[i] && r[j] == ks[j];
      } else if j == p {
        assert r[i] == ks[i] && r[j] == k;
      } else if i < p {
        assert r[i] == ks[i] && r[j] == ks[j - 1];
      } else if i == p {
        assert r[i] == k && r[j] == ks[j - 1];
      } else {
        assert r[i] == ks[i - 1] && r[j] == ks[j - 1];
      }
    }
  }

  /** Runs the query: the keys of the kept documents, newest first. */
  method SelectNewestFirst<K(==,!new), V>(m: map<K, V>, keep: V -> bool, stamp: V -> int) returns (ks: seq<K>)
    ensures NewestFirst(m, keep, stamp, ks)
  {
    ks := [];
    var rest := m.Keys;
    while rest != {}
      invariant rest <= m.Keys
      invariant Distinct(ks)
      invariant SortedNewestFirst(m, stamp, ks)
      invariant forall k :: k in ks <==> k in m && k !in rest && keep(m[k])
      decreases rest
    {
      var k :| k in rest;
      if keep(m[k]) {
        var p := InsertionPoint(m, stamp, ks, stamp(m[k]));
        InsertKeepsOrder(m, stamp, ks, k, p);
        InsertKeepsDistinct(ks, k, p);
        ks := InsertAt(ks, k, p);
      }
      rest := rest - {k};
    }
  }

  /** Stated without a precondition so that it can be called where the
      facts in scope already clash, without checking an index there. */
  lemma FirstIsMember<K>(s: seq<K>)
    ensures |s| > 0 ==> s[0] in s
  {
  }

  /** Two lists ordered strictly by the same rank and holding the same
      members are the same list. */
  lemma {:induction false} SameMembersSameOrder<K>(a: seq<K>, b: seq<K>, rank: K -> int)
    requires forall i, j :: 0 <= i < j < |a| ==> rank(a[i]) > rank(a[j])
    requires forall i, j :: 0 <= i < j < |b| ==> rank(b[i]) > rank(b[j])
    requires forall x :: x in a <==> x in b
    ensures a == b
    decreases |a|
  {
    if |a| == 0 {
      if |b| != 0 {
        FirstIsMember(b);
        assert false;
      }
    } else {
      assert a[0] in b;
      assert b[0] in a;
      var j :| 0 <= j < |b| && b[j] == a[0];
      var i :| 0 <= i < |a| && a[i] == b[0];
      if i != 0 || j != 0 {
        assert false;
      }
      forall x ensures x in a[1..] <==> x in b[1..] {
        assert x in a[1..] <==> x in a && x != a[0];
        assert x in b[1..] <==> x in b && x != b[0];
      }
      SameMembersSameOrder(a[1..], b[1..], rank);
      assert a == [a[0]] + a[1..] && b == [b[0]] + b[1..];
    }
  }

  /** When no two kept documents share a stamp, the listing is determined:
      running the same query twice on the same collection gives the same
      ordered result. */
  lemma ListingIsDeterminedByDistinctStamps<K(!new), V>(m: map<K, V>, keep: V -> bool, stamp: V -> int, a: seq<K>, b: seq<K>)
    requires NewestFirst(m, keep, stamp, a) && NewestFirst(m, keep, stamp, b)
    requires forall k1, k2 :: k1 in m && k2 in m && k1 != k2 && keep(m[k1]) && keep(m[k2]) ==> stamp(m[k1]) != stamp(m[k2])
    ensures a == b
  {
    var rank := (k: K) => if k in m then stamp(m[k]) else 0;
    assert forall i, j :: 0 <= i < j < |a| ==> rank(a[i]) > rank(a[j]) by {
      forall i, j | 0 <= i < j < |a| ensures rank(a[i]) > rank(a[j]) {
        assert a[i] != a[j];
      }
    }
    assert forall i, j :: 0 <= i < j < |b| ==> rank(b[i]) > rank(b[j]) by {
      forall i, j | 0 <= i < j < |b| ensures rank(b[i]) > rank(b[j]) {
        assert b[i] != b[j];
      }
    }
    SameMembersSameOrder(a, b, rank);
  }
}

=== FILE: rows.dfy ===
/** Parsed spreadsheet rows. A row is what the workbook decoder hands over
    for one line of the first sheet: a JavaScript object from column header
    to cell value. Its `keys` are listed in the order `Object.keys` reports
    them; a column the row lacks reads as `Absent` (JavaScript `undefined`). */
module Rows {

  import opened Basics

  /** A scalar cell value. */
  datatype Cell = Absent | Text(text: string) | Number(value: int) | Flag(flag: bool)

  datatype Row = Row(keys: seq<string>, cells: map<string, Cell>)
  {
    /** The shape every JavaScript object has: each key listed once, and
        the listed keys are exactly the keys holding a value. */
    predicate WellFormed() {
      Distinct(keys) && cells.Keys == set k | k in keys
    }

    /** `row[column]` */
    function Get(column: string): Cell {
      if column in cells then cells[column] else Absent
    }
  }

  /** A fresh object with exactly `columns` as keys, in that order, each
      holding the row's value for it; keys of the row outside `columns`
      are dropped. */
  function Project(row: Row, columns: seq<string>): (r: Row)
    ensures r.keys == columns
    ensures forall c :: c in r.cells <==> c in columns
    ensures forall c :: c in columns ==> r.Get(c) == row.Get(c)
    ensures Distinct(columns) ==> r.WellFormed()
  {
    Row(columns, map c | c in columns :: row.Get(c))
  }

  /** A row that already has exactly the given columns is kept as it is. */
  lemma ProjectKeepsMatchingRow(row: Row, columns: seq<string>)
    requires row.WellFormed() && row.keys == columns
    ensures Project(row, columns) == row
  {
    var r := Project(row, columns);
    assert r.cells.Keys == row.cells.Keys;
    assert forall c :: c in r.cells ==> r.cells[c] == row.cells[c] by {
      forall c | c in r.cells ensures r.cells[c] == row.cells[c] {
        assert r.Get(c) == row.Get(c);
      }
    }
  }

  /** Projecting twice onto the same columns changes nothing more. */
  lemma ProjectIdempotent(row: Row, columns: seq<string>)
    ensures Project(Project(row, columns), columns) == Project(row, columns)
  {
    var once := Project(row, columns);
    var twice := Project(once, columns);
    assert twice.cells.Keys == once.cells.Keys;
    assert forall c :: c in twice.cells ==> twice.cells[c] == once.cells[c] by {
      forall c | c in twice.cells ensures twice.cells[c] == once.cells[c] {
        assert twice.Get(c) == once.Get(c);
      }
    }
  }
}

=== FILE: strings.dfy ===
/** String helpers with the semantics of the JavaScript built-ins the
    source relies on: `startsWith`, `endsWith`, `split` on one character,
    `Array.prototype.join`, and the decimal rendering of a whole number in a
    template literal. */
module Strings {

  predicate StartsWith(s: string, prefix: string) {
    |prefix| <= |s| && s[..|prefix|] == prefix
  }

  predicate EndsWith(s: string, suffix: string) {
    |suffix| <= |s| && s[|s| - |suffix|..] == suffix
  }

  lemma StartsWithConcat(a: string, b: string)
    ensures StartsWith(a + b, a)
  {
    assert (a + b)[..|a|] == a;
  }

  lemma EndsWithConcat(a: string, b: string)
    ensures EndsWith(a + b, b)
  {
    assert (a + b)[|a + b| - |b|..] == b;
  }

  /** A suffix of the tail is a suffix of the whole. */
  lemma EndsWithPrepend(a: string, b: string, suffix: string)
    requires EndsWith(b, suffix)
    ensures EndsWith(a + b, suffix)
  {
    assert (a + b)[|a + b| - |suffix|..] == b[|b| - |suffix|..];
  }

  /** `parts.join(sep)`: the empty array joins to the empty string. */
  function Join(parts: seq<string>, sep: string): string {
    if |parts| == 0 then ""
    else if |parts| == 1 then parts[0]
    else parts[0] + sep + Join(parts[1..], sep)
  }

  /** Position of the first occurrence of `c` in `s`. */
  function IndexOf(s: string, c: char): (i: nat)
    requires c in s
    ensures i < |s| && s[i] == c
    ensures c !in s[..i]
  {
    if s[0] == c then 0
    else
      var i := 1 + IndexOf(s[1..], c);
      assert s[..i] == [s[0]] + s[1..][..i - 1];
      i
  }

  /** `s.split(sep)` for a one-character separator: the pieces between
      consecutive separators, so never empty, and rejoining them restores `s`. */
  function Split(s: string, sep: char): (parts: seq<string>)
    ensures |parts| >= 1
    ensures forall k :: 0 <= k < |parts| ==> sep !in parts[k]
    ensures Join(parts, [sep]) == s
    decreases |s|
  {
    if sep !in s then [s]
    else
      var i := IndexOf(s, sep);
      var rest := Split(s[i + 1..], sep);
      var parts := [s[..i]] + rest;
      assert parts[1..] == rest;
      assert s == s[..i] + [sep] + s[i + 1..];
      parts
  }

  lemma {:induction false} IndexOfAfterPrefix(p: string, c: char, t: string)
    requires c !in p
    ensures c in p + [c] + t
    ensures IndexOf(p + [c] + t, c) == |p|
    decreases |p|
  {
    if p != [] {
      assert (p + [c] + t)[1..] == p[1..] + [c] + t;
      IndexOfAfterPrefix(p[1..], c, t);
    }
  }

  /** Splitting undoes joining, as long as no piece contains the separator. */
  lemma {:induction false} SplitJoin(parts: seq<string>, sep: char)
    requires |parts| >= 1
    requires forall k :: 0 <= k < |parts| ==> sep !in parts[k]
    ensures Split(Join(parts, [sep]), sep) == parts
  {
    if |parts| > 1 {
      var rest := Join(parts[1..], [sep]);
      assert Join(parts, [sep]) == parts[0] + [sep] + rest;
      SplitAfterPrefix(parts[0], sep, rest);
      SplitJoin(parts[1..], sep);
      assert parts == [parts[0]] + parts[1..];
    } else {
      assert Join(parts, [sep]) == parts[0];
    }
  }

  /** Splitting a string that starts with a separator-free piece and a
      separator yields that piece, then the pieces of the remainder. */
  lemma SplitAfterPrefix(p: string, c: char, t: string)
    requires c !in p
    ensures Split(p + [c] + t, c) == [p] + Split(t, c)
  {
    var s := p + [c] + t;
    IndexOfAfterPrefix(p, c, t);
    assert s[..|p|] == p;
    assert s[|p| + 1..] == t;
  }

  /** The first piece of a split is the part of `s` before the first
      separator (all of `s` when there is none). */
  lemma SplitHead(s: string, c: char)
    ensures var h := Split(s, c)[0];
      |h| <= |s| && s[..|h|] == h && (|h| == |s| || s[|h|] == c)
  {
    var parts := Split(s, c);
    if |parts| > 1 {
      assert s == parts[0] + [c] + Join(parts[1..], [c]);
      assert s[..|parts[0]|] == parts[0];
    }
  }

  /** The second piece of a split is what follows the first separator, up
      to the next one or the end. */
  lemma SplitSecond(s: string, c: char, i: nat)
    requires i < |s| && s[i] == c && c !in s[..i]
    ensures |Split(s, c)| >= 2
    ensures var t := Split(s, c)[1];
      i + 1 + |t| <= |s| && s[i + 1..i + 1 + |t|] == t && (i + 1 + |t| == |s| || s[i + 1 + |t|] == c)
  {
    var rest := s[i + 1..];
    SplitAtFirst(s, c, i);
    var t := Split(rest, c)[0];
    SplitHead(rest, c);
    SliceOfSuffix(s, i + 1, |t|);
  }

  /** Splitting at the first separator. */
  lemma SplitAtFirst(s: string, c: char, i: nat)
    requires i < |s| && s[i] == c && c !in s[..i]
    ensures Split(s, c) == [s[..i]] + Split(s[i + 1..], c)
  {
    assert s == s[..i] + [c] + s[i + 1..];
    SplitAfterPrefix(s[..i], c, s[i + 1..]);
  }

  lemma SliceOfSuffix(s: string, k: nat, n: nat)
    requires k + n <= |s|
    ensures s[k..][..n] == s[k..k + n]
    ensures k + n < |s| ==> s[k..][n] == s[k + n]
  {
  }

  predicate IsDigit(c: char) {
    '0' <= c <= '9'
  }

  predicate AllDigits(s: string) {
    forall k :: 0 <= k < |s| ==> IsDigit(s[k])
  }

  function DigitChar(d: nat): (c: char)
    requires d < 10
    ensures IsDigit(c)
  {
    ('0' as int + d) as char
  }

  /** The decimal numeral of `n`, as `${n}` renders a whole number below
      10^21 (JavaScript switches to exponent notation from there on). */
  function Decimal(n: nat): (s: string)
    ensures |s| >= 1 && AllDigits(s)
    ensures |s| > 1 ==> s[0] != '0'
    decreases n
  {
    if n < 10 then [DigitChar(n)]
    else
      var s := Decimal(n / 10) + [DigitChar(n % 10)];
      assert s[0] == Decimal(n / 10)[0];
      s
  }

  /** The value of a numeral. */
  function ParseNat(s: string): nat
    requires AllDigits(s)
  {
    if |s| == 0 then 0
    else 10 * ParseNat(s[..|s| - 1]) + (s[|s| - 1] as int - '0' as int)
  }

  /** Reading back a rendered number yields the number. */
  lemma {:induction false} ParseDecimal(n: nat)
    ensures ParseNat(Decimal(n)) == n
    decreases n
  {
    if n >= 10 {
      var s := Decimal(n);
      assert s[..|s| - 1] == Decimal(n / 10);
      ParseDecimal(n / 10);
    }
  }

  /** The longest prefix of `s` made of digits. */
  function LeadingDigits(s: string): (d: string)
    ensures |d| <= |s| && d == s[..|d|] && AllDigits(d)
    ensures |d| < |s| ==> !IsDigit(s[|d|])
  {
    if |s| > 0 && IsDigit(s[0]) then
      var d := [s[0]] + LeadingDigits(s[1..]);
      assert d == s[..|d|];
      d
    else []
  }

  /** The number written right after a prefix is read back from there. */
  lemma NumberAfterPrefix(a: string, d: string, t: string)
    requires AllDigits(d)
    requires t == [] || !IsDigit(t[0])
    ensures StartsWith(a + (d + t), a)
    ensures (a + (d + t))[|a|..] == d + t
    ensures LeadingDigits((a + (d + t))[|a|..]) == d
  {
    assert (a + (d + t))[..|a|] == a;
    assert (a + (d + t))[|a|..] == d + t;
    LeadingDigitsOfNumeral(d, t);
  }

  /** A numeral followed by a non-digit is read back whole. */
  lemma {:induction false} LeadingDigitsOfNumeral(d: string, t: string)
    requires AllDigits(d)
    requires t == [] || !IsDigit(t[0])
    ensures LeadingDigits(d + t) == d
    decreases |d|
  {
    if d != [] {
      assert (d + t)[1..] == d[1..] + t;
      LeadingDigitsOfNumeral(d[1..], t);
      assert d == [d[0]] + d[1..];
    } else {
      assert d + t == t;
    }
  }
}
